=== FILE: README.md ===
# resilient-app: supervision and background-task core in Dafny

This project models the decision logic of resilient-app, an Electron application that keeps itself alive:

- an external monitor (`restart-monitor.js`) respawns the application whenever it exits or errors. It stops when an exit-flag file exists, and also, unintentionally, when `spawn` throws;
- the application (`src/main/main.js`) turns every window close, SIGINT and SIGTERM into a "spawn a replacement, then quit" attempt. It registers itself for start at login, and writes diagnostics to a primary log with a fallback log;
- a background task (`src/background/background.js`, and the worker-thread copy `src/background/worker.js`) searches for a prime in cooperative steps. It reports completion once a prime has been met and 3045 s have passed.

All I/O is abstracted. File existence, append success, spawn success or failure, PIDs and clock readings are fields of the events or parameters of the functions. Scheduled callbacks (`setTimeout`, `setImmediate`) become events that the environment delivers in any order. Each component is a pure transition function over an immutable state that includes an ordered trace of what it did. Ordering and counting facts are proved as invariants over arbitrary event sequences.

Modules:

- `Common`: an occurrence count (`Count`) and an in-order selection (`Pick`) over sequences.
- `LogSink`: the three ways of writing a log line.
  - `writeToLog` with primary/fallback selection (main.js and background.js).
  - A direct fallback append whose failure is swallowed.
  - The single-file monitor variant.
- `Primes`: `isPrime` as trial division while `i * i <= n`. It is proved equal to the textbook definition of primality.
- `PrimeSearch`: the `checkPrime` stepper shared by both background-task copies. The first candidate is a parameter.
- `Background`: `startPrimeCalculation`, as an ordered trace of log lines and the callback.
- `Worker`: the worker's message handler, its posted messages and its pending searches.
- `Supervisor`: the monitor's `startApp` loop as a transition system over child exit, child error and timer events.
- `MonitoredApp`: the single-instance lock, `restartApp`, the close/SIGINT/SIGTERM wiring, and the `ready` handler: window, then autostart, then log line.
- `AutoStart`: `setupAutoStart` as a platform-specific command sequence that stops at the first failure.

Where the code departs from the idealised design of such a supervisor, the model follows the code:

- No restart state machine collapses duplicate triggers. Every close or signal is one more spawn-and-quit attempt (`MonitoredApp.RepeatedSigtermSpawnsTwice`).
- The application has no "allow exit" switch.
- The application never writes the exit flag and never deregisters autostart.
- `restartApp` spawns at once rather than after a one-second delay.
- The background task never emits its completion event, because its search starts at an even number (see Findings).
- The monitor does not supervise forever. Its `spawn` call (restart-monitor.js:26) is outside any `try`, so a synchronous throw escapes `startApp` and ends the monitor process, whether at boot or in a restart timer (`Supervisor.ThrowingSpawnEndsMonitor`).

## Model

| member | source | states |
|---|---|---|
| LogSink.WriteToLog | src/main/main.js:35-45 | if the primary append succeeds, the message lands in the primary log only. If it fails, the primary log is untouched and the message goes to the fallback log if that append works. If both fail, the call still returns and neither log changes |
| LogSink.WriteAllRoutes | src/background/background.js:8-16 | over any series of writes, the primary log gains exactly the messages whose primary append worked, in order. The fallback log gains exactly those whose primary append failed and fallback append worked. No message is written twice; a message is lost only when both appends fail |
| LogSink.AppendFallback | src/main/main.js:150-156 | the failure line goes to the fallback log when that append works. Otherwise nothing changes and nothing is raised. The primary log is never touched |
| LogSink.AppendOrDrop | restart-monitor.js:9-11 | the monitor's log gains the message when the append works and is unchanged otherwise. The write never raises |
| Primes.IsPrimeCorrect | src/background/background.js:18-24 | `isPrime(n)` is false for every n < 2. For n >= 2 it holds iff n is prime, i.e. no d with 2 <= d < n divides n |
| Primes.NoDivisorFromCorrect | src/background/worker.js:7-13 | given no divisor below i, the loop from i (stopping once i * i > n) answers exactly whether n is prime. Checking divisors up to the square root suffices |
| Primes.EvenIsNotPrime | src/background/background.js:20-21 | every even n >= 4 is rejected, because the first trial divisor 2 divides it |
| PrimeSearch.CheckPrime | src/background/background.js:32-44 | `primeFound` after the call is its old value or-ed with `isPrime(num)`. The call completes iff that latch holds and `now - startTime >= 3045000`. Completion keeps `num`; otherwise `num` grows by exactly 2 |
| PrimeSearch.RunSearch | src/background/worker.js:21-35 | a run reports either nothing, or the completion line followed by exactly one finish. Completion needs the latch set and some clock reading past the target duration. `num` only grows, by a multiple of 2, and the start time is kept. The converse, that a run with the latch set does complete at an elapsed reading, is `PrimeSearch.LatchAndElapsedCompletes` |
| PrimeSearch.LatchAndElapsedCompletes | src/background/background.js:36-39 | once `primeFound` is set, a run completes no later than the first clock reading that shows the target duration elapsed |
| PrimeSearch.PrimeFoundLatches | src/background/background.js:30-35 | once `primeFound` is true it stays true for every later step |
| PrimeSearch.NotElapsedNeverCompletes | src/background/background.js:36 | no step completes while no clock reading shows 3045000 ms elapsed since the start |
| PrimeSearch.SearchAdvance | src/background/background.js:40-42 | a run that does not complete advances the candidate by exactly 2 per step |
| PrimeSearch.BarrenNeverCompletes | src/background/worker.js:22-31 | from an even candidate >= 4 with the latch unset, no step ever completes, whatever the clock does. The candidate stays even and the latch stays unset |
| PrimeSearch.SourceSearchNeverCompletes | src/background/background.js:26-46 | as written (start 1000000000, step 2), every candidate is even and >= 1000000000, `primeFound` never becomes true, and no completion is ever reported |
| PrimeSearch.StepsVisitCandidates | src/background/worker.js:21-32 | before the duration elapses, the k-th step examines `first + 2k`. If that candidate is prime, the latch is set afterwards |
| PrimeSearch.RunSearchSplit | src/background/worker.js:29-31 | a run that has not completed after m steps continues exactly as a fresh run from the state it reached |
| PrimeSearch.IntendedSearchFindsPrime | src/background/background.js:27-43 | with the odd start 1000000001, for any prime p >= start: if (p - start)/2 + 1 steps run before the duration elapses, the next step after it completes. It reports the completion line and then the finish |
| Background.StartPrimeCalculation | src/background/background.js:49-53 | the result is exactly the "started" line if the search never completes. Otherwise it is the "started" line, the completion line naming the candidate the search stopped at, then the callback. So the callback runs iff the search completes, at most once, last, right after the completion line, and only once a prime was met and the duration elapsed |
| Background.IntendedCallbackRuns | src/background/background.js:26-53 | with the odd start 1000000001 and any prime p above it, the steps up to p before the duration and one step after it give exactly: the "started" line, the completion line (naming p + 2), then the callback |
| Background.SourceCallbackNeverRuns | src/background/background.js:36-46 | as written, `startPrimeCalculation` writes only the "started" line and never invokes the callback |
| Worker.Handle | src/background/worker.js:38-43 | a message other than the string 'start' (another string, or any non-string value) posts nothing and starts no search. 'start' posts the "started in worker" line, then runs the first `checkPrime` of a fresh search. If that call completes, the completion line and task-finished follow; otherwise the search is left pending. A scheduled step runs the pending search's next `checkPrime`. It posts the completion line then task-finished exactly when that call completes; otherwise it posts nothing and the search advances in place. A step naming no pending search does nothing. Posted messages are only appended |
| Worker.HandleKeepsValid | src/background/worker.js:25-32 | every event keeps two facts, whatever the first candidate and clock. First, each task-finished directly follows a completion line. Second, finishes plus pending searches equal started searches |
| Worker.RunKeepsValid | src/background/worker.js:21-35 | over any event series, each task-finished is immediately preceded by its completion log message. Task-finished posts never outnumber 'start' messages, so each search finishes at most once |
| Worker.HandleKeepsSilent | src/background/worker.js:16-31 | with the source's first candidate, every event keeps every pending search at an even candidate with its latch unset, and task-finished unposted |
| Worker.SourceWorkerNeverFinishes | src/background/worker.js:15-35 | as written, the worker never posts task-finished, whatever messages arrive and however the clock runs |
| Worker.StepsRunSearch | src/background/worker.js:21-35 | with one search pending, its scheduled callbacks post exactly what `RunSearch` reports over the same clock readings: nothing, or the completion line then task-finished |
| Worker.StartThenStepsRunSearch | src/background/worker.js:38-43 | a 'start' followed by its search's callbacks posts the "started" line, then what `RunSearch` reports. The handler's own `checkPrime` reads the first clock value |
| Worker.IntendedWorkerFinishes | src/background/worker.js:15-43 | with the odd start 1000000001 and any prime p above it, a 'start' whose search runs up to p before the target duration and once more after it posts exactly: the "started" line, the completion line naming p + 2, then task-finished |
| Worker.SecondStartRunsSecondSearch | src/background/worker.js:38-43 | two 'start' messages post two "started" lines and leave two independent searches pending. Nothing guards against a second start |
| Supervisor.StartApp | restart-monitor.js:17-27 | with the flag present: no spawn, the "exit flag detected" line, then exit with status 0. With the flag absent and `spawn` throwing: the process crashes right after the spawn attempt, with no log line and no child. With the flag absent and `spawn` returning: exactly one child, then the PID line, and the monitor keeps running. The flag check comes first in every case, and the log file gains a line exactly when its append works |
| Supervisor.Reschedule | restart-monitor.js:29-37 | an `exit` or `error` handler attempts its line, then sets exactly one timer due 1000 ms later. The file gains the line only if the append works. It spawns nothing and never stops the monitor |
| Supervisor.Step | restart-monitor.js:29-37 | every `exit` and every `error` of a spawned child schedules exactly one further `startApp`, due 1000 ms later. A firing timer with the flag absent spawns one more child when `spawn` returns, however many came before (no retry limit). If `spawn` throws there, the monitor crashes. If the flag is present there, the monitor exits with status 0 and spawns nothing. The fired timer is no longer pending. After the process stops, nothing changes |
| Supervisor.StartAppKeepsValid | restart-monitor.js:9-27 | one `startApp` keeps four facts. First, every spawn attempt, returned or thrown, directly follows a check that found no flag. Second, the monitor stops only in two ways: an exit with status 0 right after the flag path, or a crash right after a throwing spawn. Third, children equal the spawns that returned. Fourth, the log file holds exactly the lines whose append worked |
| Supervisor.StepKeepsValid | restart-monitor.js:29-37 | every event keeps the same four facts as `StartAppKeepsValid` |
| Supervisor.RunKeepsValid | restart-monitor.js:17-40 | over any series of events, every spawn attempt is immediately preceded by a flag check that found no flag. The process ends only by the flag path (status 0) or by a throwing spawn, each as its last actions. The log holds exactly the lines whose append worked |
| Supervisor.BootValid | restart-monitor.js:40 | the first `startApp` establishes those invariants, including when its spawn throws |
| Supervisor.LogIsLandedWrites | restart-monitor.js:9-11 | in any reachable state, the log file is the in-order subsequence of the attempted lines whose append worked. When no append failed, it is every attempted line |
| Supervisor.FlagOnRestartStopsForever | restart-monitor.js:18-21 | the flag is re-checked on every restart. A restart timer that finds it ends the monitor with status 0, and no child is spawned afterwards, whatever events follow |
| Supervisor.ThrowingSpawnEndsMonitor | restart-monitor.js:26 | a `spawn` that throws, at boot or in a restart timer, ends the monitor for good. No further child is spawned and no timer is added, whatever events follow |
| Supervisor.FlagAtBootStopsForever | restart-monitor.js:18-21 | if the flag exists at boot, no child is ever spawned and the monitor has exited with status 0, whatever events follow |
| Supervisor.StoppedStaysStopped | restart-monitor.js:20 | after `process.exit`, or after a crash, no further event changes anything |
| Supervisor.ExitAndErrorRestartTwice | restart-monitor.js:29-37 | a child that emits both `exit` and `error` leaves two pending timers, due 1000 ms after each event. When both fire with the flag absent and `spawn` returning, two new children are spawned (no de-duplication) |
| AutoStart.SetupAutoStart | src/main/main.js:73-140 | the commands run are the platform's commands up to and including the first that throws. A start-at-login entry is in place iff the command that creates it succeeded: `reg add` on Windows, the plist write on macOS, `systemctl enable` on Linux. This holds even if a later command threw. On failure, one line goes to the fallback log when that append works. The primary log is never written and nothing is raised |
| AutoStart.PartialFailureLeavesEntry | src/main/main.js:105-131 | if `launchctl load` throws after the plist was written, or `systemctl start` throws after the unit was enabled, the failure line is still logged, yet the entry stays in place |
| AutoStart.CommandsRunInOrder | src/main/main.js:105-131 | `launchctl load` runs only on macOS after the descriptor file was written. `systemctl enable` and `systemctl start` run only on Linux after every earlier step succeeded |
| MonitoredApp.Launch | src/main/main.js:8-12 | without the single-instance lock, the process quits and installs no handler. With it, nothing has happened yet. The `ready`, SIGINT and SIGTERM handlers are registered, but no window exists yet, so there is no `close` handler |
| MonitoredApp.NoLockQuitsOnly | src/main/main.js:8-12 | without the lock, the quit is the only action ever taken and the logs never change, whatever triggers arrive |
| MonitoredApp.ChooseExecutable | src/main/main.js:143-145 | the installed executable is chosen iff it exists; otherwise the fallback path is used |
| MonitoredApp.OnTrigger | src/main/main.js:159-164 | before the lock's handlers exist, nothing happens. A window close has no handler until `ready` has created the window. A handled close (main.js:67-70) is cancelled first. Then every close, SIGINT or SIGTERM makes one restart attempt: spawn then quit, or a spawn that threw. The logs change only by that restart's failure line |
| MonitoredApp.RestartApp | src/main/main.js:142-157 | spawns the chosen executable. It quits iff the spawn did not throw. A throwing spawn writes the failure line to the fallback log only and does not quit |
| MonitoredApp.CloseHandledOnlyAfterReady | src/main/main.js:166-167 | from a launch with the lock, a close before `ready` changes nothing. After `ready`, a close is cancelled and makes one restart attempt. Without the lock, `ready` changes nothing |
| MonitoredApp.QuitOnlyAfterSpawn | src/main/main.js:147-149 | over any series of triggers, every `app.quit()` comes right after a spawn that returned |
| MonitoredApp.EveryTriggerRestarts | src/main/main.js:159-164 | once the window exists, every close, SIGINT or SIGTERM makes exactly one restart attempt, and every close is cancelled. Before that, only the signals count, and closes are neither handled nor cancelled. Repeated triggers are never collapsed |
| MonitoredApp.RepeatedSigtermSpawnsTwice | src/main/main.js:162-164 | two SIGTERMs with working spawns give two spawns and two quits |
| MonitoredApp.Ready | src/main/main.js:166-170 | without the lock, the handler was never registered and nothing happens. With it, the window, and so its `close` handler, exists afterwards. A failed autostart registration is not fatal: "App started" is still written afterwards through `writeToLog`. It reaches the primary log iff that append works. The fallback log gains exactly two things, in order: the registration failure line, when a command threw and that append works; then the start line, when only the fallback append works. Nothing else is added |

## Left out

- Electron window creation, the renderer, `ready-to-show`, `activate`, `second-instance` and `window-all-closed` (src/main/main.js:47-65, 172-189): UI plumbing. The window's existence (created by `ready`) and its `close` handler are modelled; `activate` re-creating a window is not.
- The `start-background-task` and `task-completed` IPC handlers (src/main/main.js:193-216): IPC sends to the renderer. The background search they start is modelled by `Background`.
- Log-directory creation (src/main/main.js:21-32) and the hard-coded log paths: environment-specific file-system setup.
- The content of the autostart artifacts (registry command text, plist, systemd unit): only which commands run, in which order, and what happens on failure are modelled.
- Real processes, PIDs, timers and `worker_threads` transport. Spawns, exits, errors, timer firings and `setImmediate` callbacks are environment events; the environment may deliver them in any order. The model does not enforce that timers fire in due-time order.
- `app.quit()` is recorded as an action. Electron's asynchronous shutdown is not modelled, so triggers that arrive after a quit are still handled, as the code allows.
- Timestamps, message text and the elapsed-seconds figure `(Date.now() - startTime) / 1000` in the completion line (a floating-point division over a second clock reading): log lines are datatype constructors.
- `Math.sqrt`: the loop bound `i <= Math.sqrt(n)` is modelled as `i * i <= n`. The two agree for the integers the search handles (below 2^52); double rounding near much larger perfect squares is not modelled.
- JavaScript numbers are IEEE doubles. The model uses unbounded integers, which match them exactly for every candidate a search can reach below 2^53.
- The exit status of a monitor that crashed: Node's handling of an uncaught exception belongs to the runtime, not to restart-monitor.js, so the model records only that the process stopped (`Supervisor.Crashed`).
- MonitoredApp.Ready: its log equations hold only when the lock was granted. Without the lock, main.js returns before registering the `ready` handler (src/main/main.js:9-12), so the model changes nothing.
- Worker teardown by its parent after task-finished: the parent side is not part of the worker file.

## Findings

| source | as written | input that shows it | evidently intended | confidence | as-written member | corrected member |
|---|---|---|---|---|---|---|
| src/background/background.js:27 (also src/background/worker.js:16) | the search starts at `num = 1000000000` and advances by `num += 2`, so it only ever tests even numbers, none of which is prime. `primeFound` never becomes true, and neither the callback nor `task-finished` is ever produced | any run: every clock sequence, e.g. readings far past the 3045000 ms target | start at an odd candidate (1000000001) so that the step of 2 visits every odd number and the first prime above the start is met | high (proved for every clock sequence); not executed | PrimeSearch.SourceSearchNeverCompletes | PrimeSearch.IntendedSearchFindsPrime |

`Background.StartPrimeCalculation` and `Worker.Handle` take the first candidate as a parameter. With `PrimeSearch.IntendedFirstCandidate` they run the corrected search. `Background.IntendedCallbackRuns` and `Worker.IntendedWorkerFinishes` prove that both entry points then do signal completion. Their ordering and at-most-once invariants (`Worker.RunKeepsValid`, the contract of `Background.StartPrimeCalculation`) hold for every first candidate.

In `PrimeSearch.IntendedSearchFindsPrime` the completion line names `p + 2`, not the prime `p` that set the latch. The code reports the candidate that is current at completion, and the model keeps that behaviour.

=== FILE: autostart.dfy ===
/**
  `setupAutoStart` of src/main/main.js: registers the application to start
  at login, by one of three platform-specific command sequences. The
  commands run in order; the first that throws ends the sequence, and its
  failure is written straight to the fallback log (a failure of that write
  is swallowed too). Nothing is ever raised to the caller, and an unknown
  platform does nothing.

  Which command throws, if any, is an input (`failsAt`): the index of the
  first command that throws, or any index past the end when none does.
*/
module AutoStart {
  import LogSink

  datatype Platform = Win32 | Darwin | Linux | OtherPlatform

  datatype Command =
    | RegAdd  // `reg add HKCU\...\Run /v <name> ...`
    | WritePlist  // write ~/Library/LaunchAgents/com.<name>.autostart.plist
    | LaunchctlLoad  // `launchctl load <plist>`
    | WriteUnit  // write /etc/systemd/system/<name>.service
    | SystemctlEnable  // `systemctl enable <name>.service`
    | SystemctlStart  // `systemctl start <name>.service`

  /** The command sequence of each platform branch. */
  function Commands(p: Platform): seq<Command> {
    match p
    case Win32 => [RegAdd]
    case Darwin => [WritePlist, LaunchctlLoad]
    case Linux => [WriteUnit, SystemctlEnable, SystemctlStart]
    case OtherPlatform => []
  }

  /** Whether a command that succeeded leaves a start-at-login entry in
      place: the registry value, the LaunchAgents descriptor, or the enabled
      systemd unit. Whether the entry can actually launch the application
      (its quoted executable path, for one) is not modelled. */
  predicate LeavesEntry(c: Command) {
    c == RegAdd || c == WritePlist || c == SystemctlEnable
  }

  /** Whether any of the commands leaves an entry in place. */
  predicate AnyLeavesEntry(cs: seq<Command>) {
    if |cs| == 0 then false else LeavesEntry(cs[0]) || AnyLeavesEntry(cs[1..])
  }

  /** How many of the platform's commands must succeed before an entry is in
      place; none is ever in place on an unknown platform. */
  function EntryAfter(p: Platform): nat {
    match p
    case Win32 => 1
    case Darwin => 1
    case Linux => 2
    case OtherPlatform => 1
  }

  /** `registered`: a start-at-login entry is in place, whether or not a later
      command of the sequence threw. */
  datatype Setup<M> = Setup(executed: seq<Command>, registered: bool, logs: LogSink.Logs<M>)

  /** `setupAutoStart()` on platform `p`; `failure` is the platform's
      "Failed to set auto-start" line. */
  function SetupAutoStart<M>(p: Platform, failsAt: nat, logs: LogSink.Logs<M>, failure: M, fallbackOk: bool): (r: Setup<M>)
    // the commands attempted are the platform's commands up to and including the first that throws
    ensures r.executed <= Commands(p)
    ensures |r.executed| == if failsAt < |Commands(p)| then failsAt + 1 else |Commands(p)|
    // the entry is in place exactly when the command that creates it succeeded,
    // even if a later one threw (`launchctl load`, `systemctl start`)
    ensures r.registered <==> p != OtherPlatform && failsAt >= EntryAfter(p)
    // in particular, when every command succeeded on a known platform
    ensures failsAt >= |Commands(p)| && p != OtherPlatform ==> r.registered
    // the primary log is never written; the fallback gets one failure line exactly when a command threw
    ensures r.logs.primary == logs.primary
    ensures failsAt < |Commands(p)| && fallbackOk ==> r.logs.fallback == logs.fallback + [failure]
    ensures failsAt >= |Commands(p)| || !fallbackOk ==> r.logs == logs
  {
    var cmds := Commands(p);
    if failsAt < |cmds| then
      EntryPrefix(p, failsAt);
      Setup(cmds[..failsAt + 1], AnyLeavesEntry(cmds[..failsAt]),
            LogSink.AppendFallback(logs, failure, fallbackOk))
    else
      EntryPrefix(p, |cmds|);
      assert cmds[..|cmds|] == cmds;
      Setup(cmds, AnyLeavesEntry(cmds), logs)
  }

  /** The first k commands of a platform leave an entry in place exactly when
      they include the one that creates it. */
  lemma EntryPrefix(p: Platform, k: nat)
    requires k <= |Commands(p)|
    ensures AnyLeavesEntry(Commands(p)[..k]) <==> p != OtherPlatform && k >= EntryAfter(p)
  {
  }

  /** A partial failure is still logged as a failure, yet leaves the entry in
      place: on macOS when `launchctl load` throws after the descriptor was
      written, on Linux when `systemctl start` throws after the unit was
      enabled. */
  lemma PartialFailureLeavesEntry<M>(logs: LogSink.Logs<M>, failure: M, fallbackOk: bool)
    ensures var r := SetupAutoStart(Darwin, 1, logs, failure, fallbackOk);
            r.registered && r.executed == [WritePlist, LaunchctlLoad] &&
            (fallbackOk ==> r.logs.fallback == logs.fallback + [failure])
    ensures var r := SetupAutoStart(Linux, 2, logs, failure, fallbackOk);
            r.registered && r.executed == [WriteUnit, SystemctlEnable, SystemctlStart] &&
            (fallbackOk ==> r.logs.fallback == logs.fallback + [failure])
  {
  }

  /** On macOS the load command runs only after the descriptor file was
      written, and on Linux `systemctl start` only after the unit file was
      written and enabled: a command runs only if every earlier one succeeded. */
  lemma CommandsRunInOrder<M>(p: Platform, failsAt: nat, logs: LogSink.Logs<M>, failure: M, fallbackOk: bool)
    ensures var r := SetupAutoStart(p, failsAt, logs, failure, fallbackOk);
            (LaunchctlLoad in r.executed ==> p == Darwin && failsAt >= 1) &&
            (SystemctlStart in r.executed ==> p == Linux && failsAt >= 2) &&
            (SystemctlEnable in r.executed ==> p == Linux && failsAt >= 1)
  {
  }
}

=== FILE: background.dfy ===
/**
  src/background/background.js: the direct-call variant of the background
  task. `startPrimeCalculation(callback)` writes the "started" line through
  `writeToLog`, then runs the search of `PrimeSearch`; on completion it
  writes the completion line and only then invokes `callback`.

  The log lines and the callback are recorded as an ordered trace of
  actions. A `Log` action is a write request, recorded whatever its append
  outcome; which file, if any, receives the line is `LogSink.WriteToLog`'s
  business and is not composed here.
*/
module Background {
  import opened PrimeSearch
  import opened Primes

  datatype Line = TaskStarted | PrimeCompleted(num: int)

  datatype Action = Log(line: Line) | Callback

  /** The actions a search reports, in the direct-call variant's terms. */
  function Report(effects: seq<Effect>): (r: seq<Action>)
    ensures |r| == |effects|
    ensures forall i :: 0 <= i < |effects| ==>
              (effects[i].Finish? <==> r[i] == Callback) &&
              (effects[i].CompletionLog? ==> r[i] == Log(PrimeCompleted(effects[i].num)))
  {
    if |effects| == 0 then []
    else
      (match effects[0]
       case CompletionLog(n) => [Log(PrimeCompleted(n))]
       case Finish => [Callback])
      + Report(effects[1..])
  }

  /** `startPrimeCalculation(callback)` with the search starting at candidate
      `first` and clock reading `startTime`, the i-th `checkPrime` call reading
      `clock[i]`. */
  function StartPrimeCalculation(first: int, startTime: int, clock: seq<int>): (r: seq<Action>)
    // exactly: the "started" line, then either nothing more, or the completion
    // line naming the candidate the search stopped at, followed by the callback
    ensures var run := RunSearch(Begin(first, startTime), clock);
            r == if run.finished then [Log(TaskStarted), Log(PrimeCompleted(run.last.num)), Callback]
                 else [Log(TaskStarted)]
    // the "started" line is written before any search step reports anything
    ensures |r| >= 1 && r[0] == Log(TaskStarted)
    // the callback runs at most once, right after the completion line, and is the last action
    ensures forall i :: 0 <= i < |r| && r[i] == Callback ==> i == |r| - 1 && i >= 1 && r[i - 1].Log? && r[i - 1].line.PrimeCompleted?
    // the callback runs only if a prime was met and the target duration elapsed
    ensures Callback in r ==> RunSearch(Begin(first, startTime), clock).last.primeFound &&
                              exists i :: 0 <= i < |clock| && clock[i] - startTime >= TargetDurationMs
  {
    [Log(TaskStarted)] + Report(RunSearch(Begin(first, startTime), clock).effects)
  }

  /** As written (first candidate 1000000000), the callback is never invoked
      and only the "started" line is ever written. */
  lemma SourceCallbackNeverRuns(startTime: int, clock: seq<int>)
    ensures StartPrimeCalculation(SourceFirstCandidate, startTime, clock) == [Log(TaskStarted)]
  {
    SourceSearchNeverCompletes(startTime, clock);
  }

  /** With the odd start the callback does run: for any prime p above the
      start, once the calls up to p have run before the target duration and
      one more call runs after it, the trace is the "started" line, the
      completion line and the callback. */
  lemma IntendedCallbackRuns(startTime: int, p: int, clock: seq<int>)
    requires p >= IntendedFirstCandidate && IsPrime(p)
    requires |clock| == (p - IntendedFirstCandidate) / 2 + 2
    requires forall i :: 0 <= i < |clock| - 1 ==> clock[i] - startTime < TargetDurationMs
    requires clock[|clock| - 1] - startTime >= TargetDurationMs
    ensures StartPrimeCalculation(IntendedFirstCandidate, startTime, clock)
            == [Log(TaskStarted), Log(PrimeCompleted(p + 2)), Callback]
  {
    IntendedSearchFindsPrime(startTime, p, clock);
  }
}

=== FILE: common.dfy ===
/** Small vocabulary shared by the other modules. */
module Common {

  /** Number of occurrences of x in s. */
  function Count<T(==)>(s: seq<T>, x: T): (n: nat)
    ensures n <= |s|
    ensures n == 0 <==> x !in s
  {
    if |s| == 0 then 0
    else (if s[0] == x then 1 else 0) + Count(s[1..], x)
  }

  /** Counting distributes over concatenation. */
  lemma {:induction false} CountAppend<T>(a: seq<T>, b: seq<T>, x: T)
    ensures Count(a + b, x) == Count(a, x) + Count(b, x)
  {
    if |a| == 0 {
      assert a + b == b;
    } else {
      assert (a + b)[1..] == a[1..] + b;
      CountAppend(a[1..], b, x);
    }
  }

  /** The elements of s whose flag in keep is set, in order: an in-order
      subsequence of s. */
  function Pick<T>(s: seq<T>, keep: seq<bool>): (r: seq<T>)
    requires |keep| == |s|
    ensures |r| <= |s|
    ensures (forall i :: 0 <= i < |keep| ==> keep[i]) ==> r == s
  {
    if |s| == 0 then []
    else (if keep[0] then [s[0]] else []) + Pick(s[1..], keep[1..])
  }
}

=== FILE: log_sink.dfy ===
/**
  The diagnostic log sinks.

  `writeToLog` in src/main/main.js and src/background/background.js appends
  to a primary file; if that append throws it appends to a fallback file;
  if that throws too the message is dropped. restart-monitor.js has a
  single-file variant that drops the message when the append throws.

  Whether an append succeeds is decided by the file system, so it is an
  input here (`primaryOk`, `fallbackOk`, `ok`). No variant ever raises.
*/
module LogSink {

  /** The two append-only files: the primary log and the fallback log. */
  datatype Logs<M> = Logs(primary: seq<M>, fallback: seq<M>)

  /** What one append attempt does to the two files. */
  datatype Outcome = Outcome(primaryOk: bool, fallbackOk: bool)

  /** Whether one append attempt delivers the message anywhere. */
  predicate Delivers(o: Outcome) {
    o.primaryOk || o.fallbackOk
  }

  /** `writeToLog(message)` with primary/fallback selection. */
  function WriteToLog<M>(logs: Logs<M>, msg: M, o: Outcome): (r: Logs<M>)
    // primary append succeeded: message in the primary log only
    ensures o.primaryOk ==> r.primary == logs.primary + [msg] && r.fallback == logs.fallback
    // primary append threw: primary untouched, message goes to the fallback if that append works
    ensures !o.primaryOk ==> r.primary == logs.primary
    ensures !o.primaryOk && o.fallbackOk ==> r.fallback == logs.fallback + [msg]
    // both threw: the call still returns, and nothing changed
    ensures !Delivers(o) ==> r == logs
  {
    if o.primaryOk then Logs(logs.primary + [msg], logs.fallback)
    else if o.fallbackOk then Logs(logs.primary, logs.fallback + [msg])
    else logs
  }

  /** A direct append to the fallback file whose failure is swallowed, as
      the failure paths of `restartApp` and `setupAutoStart` do. */
  function AppendFallback<M>(logs: Logs<M>, msg: M, ok: bool): (r: Logs<M>)
    ensures r.primary == logs.primary
    ensures ok ==> r.fallback == logs.fallback + [msg]
    ensures !ok ==> r == logs
  {
    if ok then Logs(logs.primary, logs.fallback + [msg]) else logs
  }

  /** The single-file `writeToLog` of restart-monitor.js. */
  function AppendOrDrop<M>(log: seq<M>, msg: M, ok: bool): (r: seq<M>)
    ensures ok ==> r == log + [msg]
    ensures !ok ==> r == log
  {
    if ok then log + [msg] else log
  }

  /** A series of `writeToLog` calls, message i with outcome i. */
  function WriteAll<M>(logs: Logs<M>, msgs: seq<M>, outcomes: seq<Outcome>): Logs<M>
    requires |msgs| == |outcomes|
    decreases |msgs|
  {
    if |msgs| == 0 then logs
    else WriteAll(WriteToLog(logs, msgs[0], outcomes[0]), msgs[1..], outcomes[1..])
  }

  /** The messages of `msgs` whose outcome satisfies `keep`, in order. */
  function Select<M>(msgs: seq<M>, outcomes: seq<Outcome>, keep: Outcome -> bool): seq<M>
    requires |msgs| == |outcomes|
  {
    if |msgs| == 0 then []
    else (if keep(outcomes[0]) then [msgs[0]] else []) + Select(msgs[1..], outcomes[1..], keep)
  }

  predicate ToPrimary(o: Outcome) { o.primaryOk }

  predicate ToFallback(o: Outcome) { !o.primaryOk && o.fallbackOk }

  /** Over any series of writes both files only grow, the primary log
      receives exactly the messages whose primary append succeeded and the
      fallback log exactly those whose primary append failed and fallback
      append succeeded, each in call order. So no message is written twice,
      and a message is lost only when both appends fail. */
  lemma {:induction false} WriteAllRoutes<M>(logs: Logs<M>, msgs: seq<M>, outcomes: seq<Outcome>)
    requires |msgs| == |outcomes|
    ensures WriteAll(logs, msgs, outcomes).primary == logs.primary + Select(msgs, outcomes, ToPrimary)
    ensures WriteAll(logs, msgs, outcomes).fallback == logs.fallback + Select(msgs, outcomes, ToFallback)
    decreases |msgs|
  {
    if |msgs| > 0 {
      var next := WriteToLog(logs, msgs[0], outcomes[0]);
      WriteAllRoutes(next, msgs[1..], outcomes[1..]);
      var p := Select(msgs[1..], outcomes[1..], ToPrimary);
      var f := Select(msgs[1..], outcomes[1..], ToFallback);
      if outcomes[0].primaryOk {
        assert next.primary + p == logs.primary + ([msgs[0]] + p);
      } else if outcomes[0].fallbackOk {
        assert next.fallback + f == logs.fallback + ([msgs[0]] + f);
      }
    }
  }
}

=== FILE: monitored_app.dfy ===
/**
  The restart logic of the monitored process, src/main/main.js.

  At load the process asks for the single-instance lock and quits at once,
  registering nothing, if it does not get it. Otherwise it registers the
  `ready` handler and the SIGINT and SIGTERM handlers; the window, and with
  it the `close` handler, exists only once `ready` has run. The three
  triggers, a window `close` (whose default is always prevented), SIGINT and
  SIGTERM, each call `restartApp` unconditionally: there is no "already scheduled"
  flag and no "allow exit" switch, so every trigger is one more restart
  attempt. `restartApp` picks the installed executable if it exists and the
  development fallback otherwise, spawns it, and quits only if the spawn did
  not throw; a throwing spawn writes a line to the fallback log instead.

  The file system and the OS answer each `restartApp` call (`Env`): whether
  the installed executable exists, whether `spawn` throws, whether the
  fallback append works.
*/
module MonitoredApp {
  import LogSink
  import AutoStart

  datatype Executable = InstalledExe | FallbackExe

  datatype Line =
    | AppStarted  // "App started."
    | RestartFailed  // "Failed to restart app: ..."
    | AutoStartFailed(platform: AutoStart.Platform)  // "Failed to set auto-start on ...: ..."

  datatype Trigger = WindowClose | SigInt | SigTerm

  /** The environment's answers to one `restartApp` call. */
  datatype Env = Env(appExists: bool, spawnThrows: bool, fallbackOk: bool)

  datatype Signal = Signal(trigger: Trigger, env: Env)

  datatype Action =
    | QuitApp  // `app.quit()`
    | CancelClose  // `event.preventDefault()` on a window close
    | Spawn(exe: Executable)  // `spawn` returned
    | SpawnThrew(exe: Executable)  // `spawn` threw

  datatype App = App(
    trace: seq<Action>,
    logs: LogSink.Logs<Line>,
    handlersInstalled: bool,  // the lock was granted: `ready`, SIGINT and SIGTERM handlers registered
    windowOpen: bool  // `ready` ran `createWindow`, which registered the `close` handler
  )

  /** Loading main.js: without the single-instance lock, quit and return
      before any handler is registered. */
  function Launch(gotLock: bool, logs: LogSink.Logs<Line>): (a: App)
    ensures !gotLock ==> a.trace == [QuitApp] && !a.handlersInstalled
    ensures gotLock ==> a.trace == [] && a.handlersInstalled
    // no window exists before `ready`
    ensures a.logs == logs && !a.windowOpen
  {
    if !gotLock then App([QuitApp], logs, false, false) else App([], logs, true, false)
  }

  /** The executable `restartApp` launches. */
  function ChooseExecutable(appExists: bool): (e: Executable)
    ensures e == InstalledExe <==> appExists
  {
    if appExists then InstalledExe else FallbackExe
  }

  /** `restartApp()`. */
  function RestartApp(a: App, env: Env): (r: App)
    // the installed executable when it exists, the fallback otherwise; then quit iff spawn returned
    ensures !env.spawnThrows ==> r.trace == a.trace + [Spawn(ChooseExecutable(env.appExists)), QuitApp]
    // a throwing spawn: no quit, and the failure line goes to the fallback log only
    ensures env.spawnThrows ==> r.trace == a.trace + [SpawnThrew(ChooseExecutable(env.appExists))]
    ensures r.logs.primary == a.logs.primary
    ensures env.spawnThrows && env.fallbackOk ==> r.logs.fallback == a.logs.fallback + [RestartFailed]
    ensures !env.spawnThrows || !env.fallbackOk ==> r.logs == a.logs
    ensures r.handlersInstalled == a.handlersInstalled && r.windowOpen == a.windowOpen
  {
    var exe := ChooseExecutable(env.appExists);
    if !env.spawnThrows then
      a.(trace := a.trace + [Spawn(exe), QuitApp])
    else
      a.(trace := a.trace + [SpawnThrew(exe)],
         logs := LogSink.AppendFallback(a.logs, RestartFailed, env.fallbackOk))
  }

  /** Whether a handler for the trigger is registered: the signal handlers
      once the lock was granted, the `close` handler once the window exists. */
  predicate Handled(a: App, t: Trigger) {
    a.handlersInstalled && (t == WindowClose ==> a.windowOpen)
  }

  /** The `close`, SIGINT and SIGTERM handlers. */
  function OnTrigger(a: App, s: Signal): (r: App)
    // before the lock was granted no handler exists, and nothing happens
    ensures !a.handlersInstalled ==> r == a
    // before `ready` there is no window, so a close has no handler
    ensures s.trigger == WindowClose && !a.windowOpen ==> r == a
    // a close is cancelled first; then every handled trigger makes one restart attempt
    ensures Handled(a, s.trigger) ==>
              var exe := ChooseExecutable(s.env.appExists);
              r.trace == a.trace + (if s.trigger == WindowClose then [CancelClose] else [])
                         + (if s.env.spawnThrows then [SpawnThrew(exe)] else [Spawn(exe), QuitApp])
    // the logs change only by the restart's failure line
    ensures Handled(a, s.trigger) ==> r.logs == RestartApp(a, s.env).logs
    ensures r.handlersInstalled == a.handlersInstalled && r.windowOpen == a.windowOpen
  {
    if !Handled(a, s.trigger) then a
    else if s.trigger == WindowClose then RestartApp(a.(trace := a.trace + [CancelClose]), s.env)
    else RestartApp(a, s.env)
  }

  function RunTriggers(a: App, ss: seq<Signal>): App
    decreases |ss|
  {
    if |ss| == 0 then a else RunTriggers(OnTrigger(a, ss[0]), ss[1..])
  }

  /** The `ready` handler, registered only when the lock was granted:
      `createWindow()` (modelled as the window and its `close` handler coming
      into existence), `setupAutoStart()`, then the "App started" line
      through `writeToLog`. */
  function Ready(a: App, p: AutoStart.Platform, failsAt: nat, autoStartFallbackOk: bool, o: LogSink.Outcome): (r: App)
    // without the lock the handler was never registered: nothing happens
    ensures !a.handlersInstalled ==> r == a
    // a failed registration is never fatal: the start line is still written, and
    // it reaches the primary log exactly when the primary append works
    ensures a.handlersInstalled && o.primaryOk ==> r.logs.primary == a.logs.primary + [AppStarted]
    ensures a.handlersInstalled && !o.primaryOk ==> r.logs.primary == a.logs.primary
    // the fallback log gains exactly the registration failure (when a command threw
    // and that append works), then the start line (when only the fallback append works)
    ensures a.handlersInstalled ==>
              r.logs.fallback == a.logs.fallback
                + (if failsAt < |AutoStart.Commands(p)| && autoStartFallbackOk then [AutoStartFailed(p)] else [])
                + (if !o.primaryOk && o.fallbackOk then [AppStarted] else [])
    ensures r.trace == a.trace && r.handlersInstalled == a.handlersInstalled
    // the window exists afterwards, so window closes are handled from now on
    ensures a.handlersInstalled ==> r.windowOpen
  {
    if !a.handlersInstalled then a
    else
      var setup := AutoStart.SetupAutoStart(p, failsAt, a.logs, AutoStartFailed(p), autoStartFallbackOk);
      a.(logs := LogSink.WriteToLog(setup.logs, AppStarted, o), windowOpen := true)
  }

  /** The window's `close` handler exists only once `ready` has run. From a
      launch with the lock, a close before `ready` changes nothing, while
      after `ready` it is cancelled and makes one restart attempt. Without
      the lock, `ready` changes nothing either. */
  lemma CloseHandledOnlyAfterReady(logs: LogSink.Logs<Line>, e: Env, p: AutoStart.Platform, failsAt: nat,
                                   autoStartFallbackOk: bool, o: LogSink.Outcome)
    ensures OnTrigger(Launch(true, logs), Signal(WindowClose, e)) == Launch(true, logs)
    ensures var exe := ChooseExecutable(e.appExists);
            var ready := Ready(Launch(true, logs), p, failsAt, autoStartFallbackOk, o);
            OnTrigger(ready, Signal(WindowClose, e)).trace
            == [CancelClose] + (if e.spawnThrows then [SpawnThrew(exe)] else [Spawn(exe), QuitApp])
    ensures Ready(Launch(false, logs), p, failsAt, autoStartFallbackOk, o) == Launch(false, logs)
  {
  }

  /** Number of restart attempts (spawn calls) in a trace. */
  function Attempts(trace: seq<Action>): (n: nat)
    ensures n <= |trace|
  {
    if |trace| == 0 then 0
    else (if trace[0].Spawn? || trace[0].SpawnThrew? then 1 else 0) + Attempts(trace[1..])
  }

  /** Number of window-close signals in a series. */
  function Closes(ss: seq<Signal>): (n: nat)
    ensures n <= |ss|
  {
    if |ss| == 0 then 0 else (if ss[0].trigger == WindowClose then 1 else 0) + Closes(ss[1..])
  }

  /** Number of cancelled closes in a trace. */
  function Cancelled(trace: seq<Action>): nat {
    if |trace| == 0 then 0 else (if trace[0] == CancelClose then 1 else 0) + Cancelled(trace[1..])
  }

  lemma {:induction false} CountsAppend(a: seq<Action>, b: seq<Action>)
    ensures Attempts(a + b) == Attempts(a) + Attempts(b)
    ensures Cancelled(a + b) == Cancelled(a) + Cancelled(b)
    decreases |a|
  {
    if |a| > 0 {
      assert (a + b)[1..] == a[1..] + b;
      CountsAppend(a[1..], b);
    } else {
      assert a + b == b;
    }
  }

  /** Every trigger handled by a running process makes exactly one restart
      attempt, and every window close is cancelled: nothing collapses
      repeated triggers. Before `ready` has opened the window, closes have no
      handler and are neither cancelled nor counted. */
  lemma {:induction false} EveryTriggerRestarts(a: App, ss: seq<Signal>)
    requires a.handlersInstalled
    ensures Attempts(RunTriggers(a, ss).trace)
            == Attempts(a.trace) + (if a.windowOpen then |ss| else |ss| - Closes(ss))
    ensures Cancelled(RunTriggers(a, ss).trace)
            == Cancelled(a.trace) + (if a.windowOpen then Closes(ss) else 0)
    decreases |ss|
  {
    if |ss| > 0 && !Handled(a, ss[0].trigger) {
      EveryTriggerRestarts(a, ss[1..]);
    } else if |ss| > 0 {
      var s := ss[0];
      var b := OnTrigger(a, s);
      var exe := ChooseExecutable(s.env.appExists);
      var pre := if s.trigger == WindowClose then [CancelClose] else [];
      var post := if s.env.spawnThrows then [SpawnThrew(exe)] else [Spawn(exe), QuitApp];
      assert b.trace == a.trace + (pre + post);
      CountsAppend(a.trace, pre + post);
      CountsAppend(pre, post);
      if s.env.spawnThrows {
        assert Attempts(post) == 1;
      } else {
        assert Attempts(post[1..]) == 0;
      }
      EveryTriggerRestarts(b, ss[1..]);
    }
  }

  /** `app.quit()` is only ever called right after a spawn that returned. */
  predicate QuitFollowsSpawn(trace: seq<Action>) {
    forall i :: 0 <= i < |trace| && trace[i] == QuitApp ==> i >= 1 && trace[i - 1].Spawn?
  }

  /** From launch with the lock, over any series of triggers: every quit
      comes right after a spawn that returned, so a throwing spawn never
      leads to a quit. */
  lemma {:induction false} QuitOnlyAfterSpawn(a: App, ss: seq<Signal>)
    requires a.handlersInstalled && QuitFollowsSpawn(a.trace)
    ensures QuitFollowsSpawn(RunTriggers(a, ss).trace)
    decreases |ss|
  {
    if |ss| > 0 {
      var b := OnTrigger(a, ss[0]);
      assert QuitFollowsSpawn(b.trace) by {
        var mid := if ss[0].trigger == WindowClose then a.trace + [CancelClose] else a.trace;
        assert QuitFollowsSpawn(mid);
        forall i | 0 <= i < |b.trace| && b.trace[i] == QuitApp
          ensures i >= 1 && b.trace[i - 1].Spawn?
        {
          if i < |mid| {
            assert b.trace[i] == mid[i];
            assert b.trace[i - 1] == mid[i - 1];
          }
        }
      }
      QuitOnlyAfterSpawn(b, ss[1..]);
    }
  }

  /** Without the single-instance lock the process quits first and does
      nothing else, whatever triggers arrive later. */
  lemma {:induction false} NoLockQuitsOnly(logs: LogSink.Logs<Line>, ss: seq<Signal>)
    ensures RunTriggers(Launch(false, logs), ss).trace == [QuitApp]
    ensures RunTriggers(Launch(false, logs), ss).logs == logs
    decreases |ss|
  {
    if |ss| > 0 {
      NoLockQuitsOnly(logs, ss[1..]);
    }
  }

  /** Two SIGTERMs with working spawns launch two replacements and call
      quit twice: unlike an idempotent scheduler, repeats are not collapsed. */
  lemma RepeatedSigtermSpawnsTwice(a: App, e1: Env, e2: Env)
    requires a.handlersInstalled && !e1.spawnThrows && !e2.spawnThrows
    ensures RunTriggers(a, [Signal(SigTerm, e1), Signal(SigTerm, e2)]).trace
            == a.trace + [Spawn(ChooseExecutable(e1.appExists)), QuitApp,
                          Spawn(ChooseExecutable(e2.appExists)), QuitApp]
  {
    var ss := [Signal(SigTerm, e1), Signal(SigTerm, e2)];
    var b := OnTrigger(a, ss[0]);
    var c := OnTrigger(b, ss[1]);
    assert ss[1..][1..] == [];
    assert RunTriggers(b, ss[1..]) == RunTriggers(c, []);
  }
}

=== FILE: prime_search.dfy ===
/**
  The `findLargePrime` / `checkPrime` stepper, written identically in
  src/background/background.js and src/background/worker.js.

  A search holds the current candidate `num`, the latch `primeFound` and the
  clock reading `startTime` taken when the search began. Each call of
  `checkPrime` reads the clock once (`now`) and either completes (the
  caller then logs the completion line and signals the finish) or advances
  `num` by 2 and reschedules itself with `setImmediate`. A run is modelled by
  the sequence of clock readings seen by successive calls.

  The first candidate is a parameter: the source starts at 1000000000
  (`SourceFirstCandidate`), which is even, so together with the step of 2 the
  search never meets a prime and never completes (`SourceSearchNeverCompletes`).
  Starting at the odd `IntendedFirstCandidate` the same stepper meets every
  prime above it (`IntendedSearchFindsPrime`).
*/
module PrimeSearch {
  import opened Primes

  /** `let num = 1000000000` */
  const SourceFirstCandidate: int := 1000000000

  /** The odd start the search evidently intends. */
  const IntendedFirstCandidate: int := 1000000001

  /** `targetDuration = 3045 * 1000` milliseconds. */
  const TargetDurationMs: int := 3045 * 1000

  /** The distance `num += 2` between successive candidates. */
  const Stride: int := 2

  datatype Search = Search(num: int, primeFound: bool, startTime: int)

  /** Result of one `checkPrime` call. */
  datatype Step =
    | Complete(at: Search)  // completion branch: log, then finish; no reschedule
    | Continue(next: Search)  // `num += 2; setImmediate(checkPrime)`

  /** What a search reports to its caller, in order. */
  datatype Effect = CompletionLog(num: int) | Finish

  /** A run: the effects reported and the search after the last call. */
  datatype Run = Run(effects: seq<Effect>, last: Search, finished: bool)

  /** State of a fresh search started at clock reading `startTime`. */
  function Begin(first: int, startTime: int): (s: Search)
    ensures s.num == first && !s.primeFound && s.startTime == startTime
  {
    Search(first, false, startTime)
  }

  /** Whether the completion condition of `checkPrime` holds. */
  predicate Elapsed(s: Search, now: int) {
    now - s.startTime >= TargetDurationMs
  }

  /** One `checkPrime` call at clock reading `now`. */
  function CheckPrime(s: Search, now: int): (r: Step)
    // the latch never resets, and is set whenever num is prime
    ensures var t := if r.Complete? then r.at else r.next;
            t.primeFound == (s.primeFound || IsPrime(s.num)) && t.startTime == s.startTime
    // completion exactly when a prime was met at some point and the target duration elapsed
    ensures r.Complete? <==> (s.primeFound || IsPrime(s.num)) && Elapsed(s, now)
    // completion keeps the candidate; otherwise the candidate advances by exactly 2
    ensures r.Complete? ==> r.at.num == s.num
    ensures r.Continue? ==> r.next.num == s.num + Stride
  {
    var found := s.primeFound || IsPrime(s.num);
    if found && now - s.startTime >= TargetDurationMs then
      Complete(s.(primeFound := found))
    else
      Continue(Search(s.num + 2, found, s.startTime))
  }

  /** Successive `checkPrime` calls, the i-th reading clock value `clock[i]`,
      stopping at the first call that completes. */
  function RunSearch(s: Search, clock: seq<int>): (r: Run)
    // the caller hears nothing, or the completion line followed by one finish
    ensures r.finished ==> r.effects == [CompletionLog(r.last.num), Finish]
    ensures !r.finished ==> r.effects == []
    // completion only once a prime has been met and some reading shows the duration elapsed
    ensures r.finished ==> r.last.primeFound && exists i :: 0 <= i < |clock| && Elapsed(s, clock[i])
    // the candidate only moves forward in steps of 2, and the start time is kept
    ensures r.last.num >= s.num && (r.last.num - s.num) % 2 == 0
    ensures r.last.startTime == s.startTime
    decreases |clock|
  {
    if |clock| == 0 then Run([], s, false)
    else
      match CheckPrime(s, clock[0])
      case Complete(t) => Run([CompletionLog(t.num), Finish], t, true)
      case Continue(n) =>
        var rest := RunSearch(n, clock[1..]);
        assert rest.finished ==> exists i :: 0 <= i < |clock| && Elapsed(s, clock[i]) by {
          if rest.finished {
            var j :| 0 <= j < |clock[1..]| && Elapsed(n, clock[1..][j]);
            assert Elapsed(s, clock[j + 1]);
          }
        }
        rest
  }

  /** The latch: once `primeFound` is set it stays set for every later call. */
  lemma {:induction false} PrimeFoundLatches(s: Search, clock: seq<int>)
    requires s.primeFound
    ensures RunSearch(s, clock).last.primeFound
    decreases |clock|
  {
    if |clock| > 0 {
      match CheckPrime(s, clock[0])
      case Complete(t) =>
      case Continue(n) => PrimeFoundLatches(n, clock[1..]);
    }
  }

  /** The converse of `RunSearch`'s completion condition: once the latch is
      set, the run completes no later than the first reading that shows the
      target duration elapsed. */
  lemma {:induction false} LatchAndElapsedCompletes(s: Search, clock: seq<int>, i: nat)
    requires s.primeFound && i < |clock| && Elapsed(s, clock[i])
    ensures RunSearch(s, clock).finished
    decreases i
  {
    match CheckPrime(s, clock[0])
    case Complete(t) =>
    case Continue(n) =>
      assert clock[1..][i - 1] == clock[i];
      LatchAndElapsedCompletes(n, clock[1..], i - 1);
  }

  /** A search that has not met a prime, whose candidate is even and at
      least 4: the shape every search from `SourceFirstCandidate` keeps. */
  predicate Barren(s: Search) {
    !s.primeFound && s.num >= 4 && s.num % 2 == 0
  }

  /** A barren search never completes, whatever the clock does; and it stays
      barren. */
  lemma {:induction false} BarrenNeverCompletes(s: Search, clock: seq<int>)
    requires Barren(s)
    ensures !RunSearch(s, clock).finished && RunSearch(s, clock).effects == []
    ensures Barren(RunSearch(s, clock).last)
    decreases |clock|
  {
    if |clock| > 0 {
      EvenIsNotPrime(s.num);
      var n := CheckPrime(s, clock[0]).next;
      BarrenNeverCompletes(n, clock[1..]);
    }
  }

  /** As written, the search starts at an even number and steps by 2, so
      every candidate is even and at least 1000000000, no candidate is prime,
      `primeFound` stays false, and neither the completion line nor the
      finish signal is ever produced, however long the clock runs. */
  lemma SourceSearchNeverCompletes(startTime: int, clock: seq<int>)
    ensures RunSearch(Begin(SourceFirstCandidate, startTime), clock).effects == []
    ensures var last := RunSearch(Begin(SourceFirstCandidate, startTime), clock).last;
            !last.primeFound && last.num % 2 == 0 && last.num >= SourceFirstCandidate
  {
    BarrenNeverCompletes(Begin(SourceFirstCandidate, startTime), clock);
  }

  /** The k-th call examines `s.num + 2k`: if that candidate is prime and no
      reading shows the target duration elapsed, the latch is set at the end
      of the run and the run has not completed. */
  lemma {:induction false} StepsVisitCandidates(s: Search, clock: seq<int>, k: nat)
    requires k < |clock|
    requires forall i :: 0 <= i < |clock| ==> !Elapsed(s, clock[i])
    requires IsPrime(s.num + Stride * k)
    ensures RunSearch(s, clock).last.primeFound
    ensures !RunSearch(s, clock).finished
    decreases k
  {
    var n := CheckPrime(s, clock[0]).next;
    if k == 0 {
      assert n.primeFound;
      PrimeFoundLatches(n, clock[1..]);
      NotElapsedNeverCompletes(n, clock[1..]);
    } else {
      assert n.num + Stride * (k - 1) == s.num + Stride * k;
      StepsVisitCandidates(n, clock[1..], k - 1);
    }
  }

  /** No call completes while no reading shows the target duration elapsed. */
  lemma NotElapsedNeverCompletes(s: Search, clock: seq<int>)
    requires forall i :: 0 <= i < |clock| ==> !Elapsed(s, clock[i])
    ensures !RunSearch(s, clock).finished
  {
  }

  /** With the intended odd start every odd candidate is examined in turn:
      for any prime p above the start, once (p - first) / 2 + 1 calls have
      run before the target duration, the latch is set, and the next call
      made after the duration completes and signals the finish. */
  lemma IntendedSearchFindsPrime(startTime: int, p: int, clock: seq<int>)
    requires p >= IntendedFirstCandidate && IsPrime(p)
    requires |clock| == (p - IntendedFirstCandidate) / 2 + 2
    requires forall i :: 0 <= i < |clock| - 1 ==> clock[i] - startTime < TargetDurationMs
    requires clock[|clock| - 1] - startTime >= TargetDurationMs
    ensures RunSearch(Begin(IntendedFirstCandidate, startTime), clock).effects
            == [CompletionLog(p + 2), Finish]
  {
    var s := Begin(IntendedFirstCandidate, startTime);
    var k := (p - IntendedFirstCandidate) / 2;
    EvenIsNotPrime(p - 1);
    assert p % 2 == 1 by {
      if p % 2 == 0 {
        EvenIsNotPrime(p);
      }
    }
    assert s.num + Stride * k == p;
    var early := clock[..k + 1];
    StepsVisitCandidates(s, early, k);
    RunSearchSplit(s, clock, k + 1);
    var mid := RunSearch(s, early).last;
    assert clock[k + 1..] == [clock[|clock| - 1]];
    assert mid.num == p + 2 by {
      SearchAdvance(s, early);
    }
  }

  /** A run that does not complete within its first m readings continues
      from the search it reached. */
  lemma {:induction false} RunSearchSplit(s: Search, clock: seq<int>, m: nat)
    requires m <= |clock|
    requires !RunSearch(s, clock[..m]).finished
    ensures RunSearch(s, clock) == RunSearch(RunSearch(s, clock[..m]).last, clock[m..])
    decreases m
  {
    if m > 0 {
      match CheckPrime(s, clock[0])
      case Complete(t) =>
        assert false;
      case Continue(n) =>
        assert clock[..m][1..] == clock[1..][..m - 1];
        assert clock[m..] == clock[1..][m - 1..];
        RunSearchSplit(n, clock[1..], m - 1);
    } else {
      assert clock[..0] == [];
      assert clock[0..] == clock;
    }
  }

  /** A run that does not complete advances the candidate once per reading. */
  lemma {:induction false} SearchAdvance(s: Search, clock: seq<int>)
    requires !RunSearch(s, clock).finished
    ensures RunSearch(s, clock).last.num == s.num + Stride * |clock|
    decreases |clock|
  {
    if |clock| > 0 {
      match CheckPrime(s, clock[0])
      case Complete(t) =>
      case Continue(n) => SearchAdvance(n, clock[1..]);
    }
  }
}

=== FILE: primes.dfy ===
/**
  Trial-division primality test used by both copies of the background task
  (`isPrime` in src/background/background.js and src/background/worker.js).

  The source loops `for (i = 2; i <= Math.sqrt(n); i++)`; for the integers the
  task ever tests that bound is the integer condition `i * i <= n`, which is
  what the model uses.
*/
module Primes {

  /** Reference definition: n is prime when it is at least 2 and has no
      divisor strictly between 1 and n. */
  ghost predicate IsPrimeNumber(n: int) {
    n >= 2 && forall d :: 2 <= d < n ==> n % d != 0
  }

  /** The loop of `isPrime` from candidate divisor `i` onwards: true when no
      `j` with `i <= j` and `j * j <= n` divides `n`. */
  function NoDivisorFrom(n: int, i: int): bool
    requires 2 <= i
    decreases n - i
  {
    if i * i > n then true
    else if n % i == 0 then false
    else
      assert i <= i * i;
      NoDivisorFrom(n, i + 1)
  }

  /** `isPrime(n)`: false below 2, otherwise trial division from 2. */
  function IsPrime(n: int): bool {
    if n < 2 then false else NoDivisorFrom(n, 2)
  }

  /** Every divisor d of n has a co-divisor n / d, and the smaller of the
      two has a square at most n. */
  lemma CoDivisor(n: int, d: int)
    requires 2 <= d < n && n % d == 0
    ensures var q := n / d; 2 <= q < n && n % q == 0 && q * d == n
  {
    var q := n / d;
    assert n == d * q + n % d;
    assert d * q == n;
    assert q >= 2;
    MultipleMod(d, q);
  }

  /** (d * q) % q == 0 for positive q. */
  lemma MultipleMod(d: int, q: int)
    requires q > 0
    ensures (d * q) % q == 0
  {
    var r := (d * q) % q;
    var m := d - (d * q) / q;
    assert q * m == r;
    if m > 0 {
      MulAtLeast(q, m);
    } else if m < 0 {
      MulAtLeast(q, -m);
    }
  }

  /** a * b >= a for positive a and b. */
  lemma MulAtLeast(a: int, b: int)
    requires a > 0 && b > 0
    ensures a * b >= a
  {
  }

  /** If n has no divisor below i and i * i > n, then n has no divisor at all. */
  lemma NoSmallDivisorSuffices(n: int, i: int)
    requires 2 <= i && i * i > n && n >= 2
    requires forall d :: 2 <= d < i ==> n % d != 0
    ensures IsPrimeNumber(n)
  {
    forall d | 2 <= d < n
      ensures n % d != 0
    {
      if d >= i && n % d == 0 {
        SmallCoDivisor(n, d, i);
        assert false;
      }
    }
  }

  /** A divisor d >= i of n, where i * i > n, has a co-divisor below i. */
  lemma SmallCoDivisor(n: int, d: int, i: int)
    requires 2 <= i <= d < n && i * i > n && n % d == 0
    ensures var q := n / d; 2 <= q < i && n % q == 0
  {
    CoDivisor(n, d);
    var q := n / d;
    // i * q <= d * q == n < i * i, hence q < i
    MulMonotone(q, i, d);
    if q >= i {
      MulMonotone(i, i, q);
    }
  }

  /** Multiplying by a non-negative factor preserves <=. */
  lemma MulMonotone(a: int, b: int, c: int)
    requires a >= 0 && b <= c
    ensures a * b <= a * c
  {
  }

  /** The loop from `i` answers primality, given that no divisor below `i`
      was found. */
  lemma {:induction false} NoDivisorFromCorrect(n: int, i: int)
    requires 2 <= i && n >= 2
    requires forall d :: 2 <= d < i ==> n % d != 0
    ensures NoDivisorFrom(n, i) <==> IsPrimeNumber(n)
    decreases n - i
  {
    if i * i > n {
      NoSmallDivisorSuffices(n, i);
    } else if n % i == 0 {
      assert i < i * i;
      assert !IsPrimeNumber(n);
    } else {
      assert i <= i * i;
      NoDivisorFromCorrect(n, i + 1);
    }
  }

  /** `isPrime` decides primality exactly: false for every n < 2, and for
      n >= 2 true iff n has no divisor d with 2 <= d and d * d <= n, which is
      the case iff n is prime. */
  lemma IsPrimeCorrect(n: int)
    ensures IsPrime(n) <==> IsPrimeNumber(n)
    ensures n < 2 ==> !IsPrime(n)
  {
    if n >= 2 {
      NoDivisorFromCorrect(n, 2);
    }
  }

  /** An even number of at least 4 is never reported prime: the first trial
      divisor, 2, divides it. */
  lemma EvenIsNotPrime(n: int)
    requires n >= 4 && n % 2 == 0
    ensures !IsPrime(n)
  {
  }
}

=== FILE: supervisor.dfy ===
/**
  restart-monitor.js: the external supervisor loop.

  `startApp` checks whether the exit flag file exists. If it does, it writes
  "Exit flag detected" and exits the process with code 0. Otherwise it spawns
  the application once, writes the child's PID, and attaches two handlers to
  that child: on `exit` and on `error` it writes a line and schedules another
  `startApp` after 1000 ms. There is no retry limit, no backoff growth and no
  de-duplication: a child that emits both events causes two later
  iterations.

  The `spawn` call is not inside a `try`. When it throws synchronously, the
  exception leaves `startApp`: from the boot call it ends the script, from a
  timer callback it is an uncaught exception. Either way the monitor process
  stops, with no log line and no further restart (`Crashed`).

  The monitor is a transition system over environment events. The flag's
  presence, whether `spawn` throws, the PID the OS assigns and whether the
  log append succeeds are fields of the events (`Probe`), and each pending
  timer is kept with the clock reading at which it is due.
*/
module Supervisor {
  import opened Common
  import LogSink

  /** `setTimeout(startApp, 1000)` */
  const RestartDelayMs: int := 1000

  datatype Line =
    | FlagDetected  // "Exit flag detected, monitor stopping."
    | StartedChild(pid: int)  // "Started Electron with PID: ..."
    | ChildExited(code: int)  // "Electron exited with code: ... Restarting..."
    | MonitorError  // "Monitor error: ... Retrying..."

  /** Observable actions, in the order the monitor performs them. */
  datatype Action =
    | CheckFlag(present: bool)
    | Spawn(pid: int)  // `spawn` returned a child
    | SpawnThrew  // `spawn` threw; the exception escapes `startApp`
    | WriteLog(line: Line, landed: bool)  // one append attempt, and whether it reached the file
    | Schedule(due: int)
    | ExitProcess(code: int)

  /** What the environment answers inside one `startApp` call. */
  datatype Probe = Probe(flagPresent: bool, spawnThrows: bool, pid: int, logOk: bool)

  datatype Event =
    | ChildExit(child: nat, code: int, now: int, logOk: bool)  // `exit` of the child-th spawned process
    | ChildError(child: nat, now: int, logOk: bool)  // `error` of the child-th spawned process
    | TimerFire(timer: nat, probe: Probe)  // pending timer `timer` runs `startApp`

  /** Whether the monitor process is still alive, and how it ended. */
  datatype Status =
    | Running
    | Exited(code: int)  // `process.exit(code)` ran
    | Crashed  // an exception from `spawn` ended the process

  datatype Monitor = Monitor(
    trace: seq<Action>,  // everything done so far, in order
    log: seq<Line>,  // the monitor's log file
    children: seq<int>,  // PIDs of the spawned processes, in spawn order
    timers: seq<int>,  // due times of the pending restart timers
    status: Status
  )

  /** One `startApp` call. */
  function StartApp(m: Monitor, p: Probe): (r: Monitor)
    requires m.status.Running?
    // flag present: no spawn, the log line, then exit with status 0
    ensures p.flagPresent ==>
              r.status == Exited(0) && r.children == m.children &&
              r.trace == m.trace + [CheckFlag(true), WriteLog(FlagDetected, p.logOk), ExitProcess(0)] &&
              r.log == m.log + (if p.logOk then [FlagDetected] else [])
    // flag absent and spawn throws: the process dies right after the spawn attempt, writing nothing
    ensures !p.flagPresent && p.spawnThrows ==>
              r.status == Crashed && r.children == m.children &&
              r.trace == m.trace + [CheckFlag(false), SpawnThrew] && r.log == m.log
    // flag absent and spawn returns: exactly one child, then the PID line; the monitor keeps running
    ensures !p.flagPresent && !p.spawnThrows ==>
              r.status.Running? && r.children == m.children + [p.pid] &&
              r.trace == m.trace + [CheckFlag(false), Spawn(p.pid), WriteLog(StartedChild(p.pid), p.logOk)] &&
              r.log == m.log + (if p.logOk then [StartedChild(p.pid)] else [])
    // `startApp` itself never sets a timer
    ensures r.timers == m.timers
  {
    if p.flagPresent then
      Monitor(m.trace + [CheckFlag(true), WriteLog(FlagDetected, p.logOk), ExitProcess(0)],
              LogSink.AppendOrDrop(m.log, FlagDetected, p.logOk), m.children, m.timers, Exited(0))
    else if p.spawnThrows then
      Monitor(m.trace + [CheckFlag(false), SpawnThrew], m.log, m.children, m.timers, Crashed)
    else
      Monitor(m.trace + [CheckFlag(false), Spawn(p.pid), WriteLog(StartedChild(p.pid), p.logOk)],
              LogSink.AppendOrDrop(m.log, StartedChild(p.pid), p.logOk),
              m.children + [p.pid], m.timers, Running)
  }

  /** The first `startApp()`, run when the monitor starts. */
  function Boot(p: Probe): Monitor {
    StartApp(Monitor([], [], [], [], Running), p)
  }

  /** A child handler: write `line`, then `setTimeout(startApp, 1000)`. */
  function Reschedule(m: Monitor, line: Line, now: int, logOk: bool): (r: Monitor)
    // the line is attempted first, then exactly one restart is scheduled, due 1000 ms later
    ensures r.trace == m.trace + [WriteLog(line, logOk), Schedule(now + RestartDelayMs)]
    ensures r.timers == m.timers + [now + RestartDelayMs]
    // the file gains the line only if the append worked; a failed append is swallowed
    ensures r.log == m.log + (if logOk then [line] else [])
    // the handler spawns nothing and never stops the monitor
    ensures r.children == m.children && r.status == m.status
  {
    Monitor(m.trace + [WriteLog(line, logOk), Schedule(now + RestartDelayMs)],
            LogSink.AppendOrDrop(m.log, line, logOk), m.children,
            m.timers + [now + RestartDelayMs], m.status)
  }

  /** The monitor's reaction to one event. Once the process has stopped
      nothing happens; events naming an unknown child or timer have no
      handler. */
  function Step(m: Monitor, ev: Event): (r: Monitor)
    // every exit and every error of a known child schedules exactly one restart, 1000 ms later
    ensures m.status.Running? && (ev.ChildExit? || ev.ChildError?) && ev.child < |m.children| ==>
              r.timers == m.timers + [ev.now + RestartDelayMs] && r.children == m.children
    // a firing timer runs `startApp` with no regard to how many restarts came before
    ensures m.status.Running? && ev.TimerFire? && ev.timer < |m.timers| &&
            !ev.probe.flagPresent && !ev.probe.spawnThrows ==>
              |r.children| == |m.children| + 1 && r.status.Running?
    // ... and a throwing spawn in it ends the monitor
    ensures m.status.Running? && ev.TimerFire? && ev.timer < |m.timers| &&
            !ev.probe.flagPresent && ev.probe.spawnThrows ==>
              r.status == Crashed && r.children == m.children
    // a restart that finds the exit flag exits with status 0 and spawns nothing
    ensures m.status.Running? && ev.TimerFire? && ev.timer < |m.timers| && ev.probe.flagPresent ==>
              r.status == Exited(0) && r.children == m.children
    // the timer that fired is no longer pending, whatever `startApp` did
    ensures m.status.Running? && ev.TimerFire? && ev.timer < |m.timers| ==>
              r.timers == m.timers[..ev.timer] + m.timers[ev.timer + 1..]
    // after the process stopped, nothing changes
    ensures !m.status.Running? ==> r == m
    // actions are only ever appended
    ensures m.trace <= r.trace
  {
    if !m.status.Running? then m
    else
      match ev
      case ChildExit(c, code, now, ok) =>
        if c < |m.children| then Reschedule(m, ChildExited(code), now, ok) else m
      case ChildError(c, now, ok) =>
        if c < |m.children| then Reschedule(m, MonitorError, now, ok) else m
      case TimerFire(k, p) =>
        if k < |m.timers| then
          StartApp(m.(timers := m.timers[..k] + m.timers[k + 1..]), p)
        else m
  }

  function Run(m: Monitor, evs: seq<Event>): Monitor
    decreases |evs|
  {
    if |evs| == 0 then m else Run(Step(m, evs[0]), evs[1..])
  }

  /** Every spawn attempt, returned or thrown, comes right after a flag
      check that found no flag. */
  predicate SpawnsFollowAbsentFlag(trace: seq<Action>) {
    forall i :: 0 <= i < |trace| && (trace[i].Spawn? || trace[i].SpawnThrew?) ==>
      i >= 1 && trace[i - 1] == CheckFlag(false)
  }

  /** The monitor stops in one of two ways only, each as its last actions:
      an exit with a status is the flag path, with status 0; any other stop
      is a crash right after a throwing spawn. */
  predicate StopsOnlyByFlagOrThrow(m: Monitor) {
    var n := |m.trace|;
    match m.status
    case Running => true
    case Exited(code) =>
      code == 0 && n >= 3 && m.trace[n - 3] == CheckFlag(true) &&
      m.trace[n - 2].WriteLog? && m.trace[n - 2].line == FlagDetected && m.trace[n - 1] == ExitProcess(0)
    case Crashed =>
      n >= 2 && m.trace[n - 2] == CheckFlag(false) && m.trace[n - 1] == SpawnThrew
  }

  /** Number of spawns that returned a child. */
  function SpawnCount(trace: seq<Action>): (n: nat)
    ensures n <= |trace|
  {
    if |trace| == 0 then 0 else (if trace[0].Spawn? then 1 else 0) + SpawnCount(trace[1..])
  }

  /** The lines of every append attempt, in order. */
  function Attempted(trace: seq<Action>): (lines: seq<Line>)
    ensures |lines| <= |trace|
  {
    if |trace| == 0 then []
    else (if trace[0].WriteLog? then [trace[0].line] else []) + Attempted(trace[1..])
  }

  /** Whether each append attempt reached the file, in order. */
  function Outcomes(trace: seq<Action>): (oks: seq<bool>)
    ensures |oks| == |Attempted(trace)|
  {
    if |trace| == 0 then []
    else (if trace[0].WriteLog? then [trace[0].landed] else []) + Outcomes(trace[1..])
  }

  /** The lines of the append attempts that reached the file, in order. */
  function Landed(trace: seq<Action>): seq<Line> {
    if |trace| == 0 then []
    else (if trace[0].WriteLog? && trace[0].landed then [trace[0].line] else []) + Landed(trace[1..])
  }

  /** No append attempt in the trace failed. */
  predicate AllLanded(trace: seq<Action>) {
    forall i :: 0 <= i < |trace| && trace[i].WriteLog? ==> trace[i].landed
  }

  lemma {:induction false} TraceAppend(a: seq<Action>, b: seq<Action>)
    ensures SpawnCount(a + b) == SpawnCount(a) + SpawnCount(b)
    ensures Landed(a + b) == Landed(a) + Landed(b)
    decreases |a|
  {
    if |a| > 0 {
      assert (a + b)[1..] == a[1..] + b;
      TraceAppend(a[1..], b);
    } else {
      assert a + b == b;
    }
  }

  /** The landed lines are the attempted lines picked by their outcomes:
      an in-order subsequence of them, and all of them when no append
      failed. */
  lemma {:induction false} LandedPicksAttempted(trace: seq<Action>)
    ensures Landed(trace) == Pick(Attempted(trace), Outcomes(trace))
    ensures AllLanded(trace) ==> Landed(trace) == Attempted(trace)
    decreases |trace|
  {
    if |trace| > 0 {
      LandedPicksAttempted(trace[1..]);
      if trace[0].WriteLog? {
        var a := Attempted(trace);
        var o := Outcomes(trace);
        assert a[1..] == Attempted(trace[1..]) && o[1..] == Outcomes(trace[1..]);
      } else {
        assert Attempted(trace) == Attempted(trace[1..]) && Outcomes(trace) == Outcomes(trace[1..]);
      }
      if AllLanded(trace) {
        assert AllLanded(trace[1..]) by {
          forall i | 0 <= i < |trace[1..]| && trace[1..][i].WriteLog?
            ensures trace[1..][i].landed
          {
            assert trace[1..][i] == trace[i + 1];
          }
        }
      }
    }
  }

  predicate Valid(m: Monitor) {
    SpawnsFollowAbsentFlag(m.trace) && StopsOnlyByFlagOrThrow(m) &&
    |m.children| == SpawnCount(m.trace) && m.log == Landed(m.trace)
  }

  /** Appending actions none of which is a spawn attempt keeps every spawn
      attempt after its absent-flag check. */
  lemma AppendKeepsSpawnOrder(trace: seq<Action>, tail: seq<Action>)
    requires SpawnsFollowAbsentFlag(trace)
    requires forall j :: 0 <= j < |tail| ==> !tail[j].Spawn? && !tail[j].SpawnThrew?
    ensures SpawnsFollowAbsentFlag(trace + tail)
  {
    var t := trace + tail;
    forall i | 0 <= i < |t| && (t[i].Spawn? || t[i].SpawnThrew?)
      ensures i >= 1 && t[i - 1] == CheckFlag(false)
    {
      if i < |trace| {
        assert t[i] == trace[i] && t[i - 1] == trace[i - 1];
      } else {
        assert false;
      }
    }
  }

  /** Appending an absent-flag check and then actions whose only spawn
      attempt comes first keeps every spawn attempt after its check. */
  lemma CheckThenSpawnKeepsOrder(trace: seq<Action>, spawn: Action, rest: seq<Action>)
    requires SpawnsFollowAbsentFlag(trace)
    requires forall j :: 0 <= j < |rest| ==> !rest[j].Spawn? && !rest[j].SpawnThrew?
    ensures SpawnsFollowAbsentFlag(trace + [CheckFlag(false), spawn] + rest)
  {
    var t := trace + [CheckFlag(false), spawn] + rest;
    forall i | 0 <= i < |t| && (t[i].Spawn? || t[i].SpawnThrew?)
      ensures i >= 1 && t[i - 1] == CheckFlag(false)
    {
      if i < |trace| {
        assert t[i] == trace[i] && t[i - 1] == trace[i - 1];
      } else if i > |trace| + 1 {
        assert false;
      }
    }
  }

  /** `startApp` keeps the invariants, whichever way it goes. */
  lemma StartAppKeepsValid(m: Monitor, p: Probe)
    requires Valid(m) && m.status.Running?
    ensures Valid(StartApp(m, p))
  {
    if p.flagPresent {
      FlagPathKeepsValid(m, p);
    } else if p.spawnThrows {
      ThrowPathKeepsValid(m, p);
    } else {
      SpawnPathKeepsValid(m, p);
    }
  }

  lemma FlagPathKeepsValid(m: Monitor, p: Probe)
    requires Valid(m) && m.status.Running? && p.flagPresent
    ensures Valid(StartApp(m, p))
  {
    var tail := [CheckFlag(true), WriteLog(FlagDetected, p.logOk), ExitProcess(0)];
    TraceAppend(m.trace, tail);
    assert SpawnCount(tail[2..]) == 0 && SpawnCount(tail[1..]) == 0;
    assert Landed(tail[2..]) == [] && Landed(tail[1..]) == Landed(tail[1..2]);
    AppendKeepsSpawnOrder(m.trace, tail);
  }

  lemma ThrowPathKeepsValid(m: Monitor, p: Probe)
    requires Valid(m) && m.status.Running? && !p.flagPresent && p.spawnThrows
    ensures Valid(StartApp(m, p))
  {
    var tail := [CheckFlag(false), SpawnThrew];
    TraceAppend(m.trace, tail);
    assert SpawnCount(tail[1..]) == 0 && Landed(tail[1..]) == [];
    CheckThenSpawnKeepsOrder(m.trace, SpawnThrew, []);
    assert StartApp(m, p).trace == m.trace + [CheckFlag(false), SpawnThrew] + [];
  }

  lemma SpawnPathKeepsValid(m: Monitor, p: Probe)
    requires Valid(m) && m.status.Running? && !p.flagPresent && !p.spawnThrows
    ensures Valid(StartApp(m, p))
  {
    var write := WriteLog(StartedChild(p.pid), p.logOk);
    var tail := [CheckFlag(false), Spawn(p.pid), write];
    TraceAppend(m.trace, tail);
    assert SpawnCount(tail[2..]) == 0 && SpawnCount(tail[1..]) == 1;
    assert Landed(tail[1..]) == Landed(tail[2..]);
    CheckThenSpawnKeepsOrder(m.trace, Spawn(p.pid), [write]);
    assert StartApp(m, p).trace == m.trace + [CheckFlag(false), Spawn(p.pid)] + [write];
  }

  lemma RescheduleKeepsValid(m: Monitor, line: Line, now: int, logOk: bool)
    requires Valid(m) && m.status.Running?
    ensures Valid(Reschedule(m, line, now, logOk))
  {
    var tail := [WriteLog(line, logOk), Schedule(now + RestartDelayMs)];
    TraceAppend(m.trace, tail);
    assert SpawnCount(tail[1..]) == 0 && Landed(tail[1..]) == [];
    AppendKeepsSpawnOrder(m.trace, tail);
  }

  lemma StepKeepsValid(m: Monitor, ev: Event)
    requires Valid(m)
    ensures Valid(Step(m, ev))
  {
    if m.status.Running? {
      match ev
      case ChildExit(c, code, now, ok) =>
        if c < |m.children| {
          RescheduleKeepsValid(m, ChildExited(code), now, ok);
        }
      case ChildError(c, now, ok) =>
        if c < |m.children| {
          RescheduleKeepsValid(m, MonitorError, now, ok);
        }
      case TimerFire(k, p) =>
        if k < |m.timers| {
          StartAppKeepsValid(m.(timers := m.timers[..k] + m.timers[k + 1..]), p);
        }
    }
  }

  /** Over any series of events after boot: every spawn attempt is
      immediately preceded by a flag check that found the flag absent; the
      monitor stops only through the flag path (status 0) or a throwing
      spawn, each as its last actions; the children are exactly the spawns
      that returned; and the log file holds exactly the lines whose append
      worked. */
  lemma {:induction false} RunKeepsValid(m: Monitor, evs: seq<Event>)
    requires Valid(m)
    ensures Valid(Run(m, evs))
    decreases |evs|
  {
    if |evs| > 0 {
      StepKeepsValid(m, evs[0]);
      RunKeepsValid(Step(m, evs[0]), evs[1..]);
    }
  }

  /** The monitor right after boot satisfies the invariants. */
  lemma BootValid(p: Probe)
    ensures Valid(Boot(p))
  {
    StartAppKeepsValid(Monitor([], [], [], [], Running), p);
  }

  /** The monitor's log file, in a reachable state: the attempted lines in
      order, minus those whose append failed; every attempted line when no
      append failed. */
  lemma LogIsLandedWrites(m: Monitor)
    requires Valid(m)
    ensures m.log == Pick(Attempted(m.trace), Outcomes(m.trace))
    ensures AllLanded(m.trace) ==> m.log == Attempted(m.trace)
  {
    LandedPicksAttempted(m.trace);
  }

  /** If the flag is present at boot, nothing is ever spawned and the monitor
      has exited with status 0, whatever happens next. */
  lemma {:induction false} FlagAtBootStopsForever(p: Probe, evs: seq<Event>)
    requires p.flagPresent
    ensures Run(Boot(p), evs).children == [] && Run(Boot(p), evs).status == Exited(0)
  {
    StoppedStaysStopped(Boot(p), evs);
  }

  /** The exit flag is re-checked on every restart: a restart timer that
      finds it ends the monitor with status 0, and no child is spawned after
      that, whatever events follow. */
  lemma {:induction false} FlagOnRestartStopsForever(m: Monitor, k: nat, p: Probe, evs: seq<Event>)
    requires m.status.Running? && k < |m.timers| && p.flagPresent
    ensures Run(Step(m, TimerFire(k, p)), evs).status == Exited(0)
    ensures Run(Step(m, TimerFire(k, p)), evs).children == m.children
  {
    StoppedStaysStopped(Step(m, TimerFire(k, p)), evs);
  }

  /** A throwing spawn ends the monitor for good: from then on no child is
      spawned and no restart happens, whatever events follow. This holds at
      boot and in every timer callback alike. */
  lemma {:induction false} ThrowingSpawnEndsMonitor(m: Monitor, p: Probe, evs: seq<Event>)
    requires m.status.Running? && !p.flagPresent && p.spawnThrows
    ensures Run(StartApp(m, p), evs).status == Crashed
    ensures Run(StartApp(m, p), evs).children == m.children
    ensures Run(StartApp(m, p), evs).timers == m.timers
  {
    StoppedStaysStopped(StartApp(m, p), evs);
  }

  /** Once the process has stopped, by exit or by crash, it ignores every
      further event. */
  lemma {:induction false} StoppedStaysStopped(m: Monitor, evs: seq<Event>)
    requires !m.status.Running?
    ensures Run(m, evs) == m
    decreases |evs|
  {
    if |evs| > 0 {
      StoppedStaysStopped(Step(m, evs[0]), evs[1..]);
    }
  }

  /** A child that emits both `exit` and `error` causes two independent
      restarts: two timers are pending, and once both fire with the flag
      absent and spawn returning, two new children have been spawned. */
  lemma ExitAndErrorRestartTwice(m: Monitor, c: nat, code: int, t1: int, t2: int,
                                 ok1: bool, ok2: bool, p1: Probe, p2: Probe)
    requires m.status.Running? && c < |m.children|
    requires !p1.flagPresent && !p1.spawnThrows && !p2.flagPresent && !p2.spawnThrows
    ensures var m2 := Step(Step(m, ChildExit(c, code, t1, ok1)), ChildError(c, t2, ok2));
            m2.timers == m.timers + [t1 + RestartDelayMs, t2 + RestartDelayMs]
    ensures var m2 := Step(Step(m, ChildExit(c, code, t1, ok1)), ChildError(c, t2, ok2));
            var m4 := Step(Step(m2, TimerFire(|m.timers|, p1)), TimerFire(|m.timers|, p2));
            |m4.children| == |m.children| + 2 && m4.status.Running?
  {
  }
}

=== FILE: worker.dfy ===
/**
  src/background/worker.js: the worker-thread variant of the background task.

  The worker posts two kinds of message to its parent: log lines
  (`{type: 'log', message}`) and the terminal `{type: 'task-finished'}`. On a
  `'start'` message it posts the "started in worker" line and begins a search
  of `PrimeSearch`, whose first `checkPrime` runs synchronously inside the
  message handler; every later call runs from a `setImmediate` callback.
  Nothing stops a second `'start'` from beginning a second, independent
  search, so the worker holds a list of pending searches, each with one
  scheduled callback.

  The environment decides the order of events: a message arriving, or the
  scheduled callback of pending search `k` running at clock reading `now`.
*/
module Worker {
  import opened Common
  import opened PrimeSearch
  import opened Primes

  datatype Line = StartedInWorker | PrimeCompleted(num: int)

  /** A message posted to the parent. */
  datatype Posted = LogMessage(line: Line) | TaskFinished

  /** A message received from the parent: a string, or any other
      structured-clone value. Only the string 'start' is acted on. */
  datatype Inbound = Text(text: string) | NonString

  /** `event === 'start'` */
  const StartRequest: Inbound := Text("start")

  datatype Event =
    // a message; `startTime` is findLargePrime's clock reading, `now` that of its first checkPrime
    | Receive(msg: Inbound, startTime: int, now: int)
    // the scheduled checkPrime of pending search `search` runs at clock reading `now`
    | Immediate(search: nat, now: int)

  datatype Worker = Worker(posted: seq<Posted>, pending: seq<Search>)

  /** A worker thread that has posted nothing and runs no search. */
  const Fresh: Worker := Worker([], [])

  /** What a completing search posts: its completion line, then task-finished. */
  function Done(num: int): seq<Posted> {
    [LogMessage(PrimeCompleted(num)), TaskFinished]
  }

  /** The worker's reaction to one event, with searches starting at `first`. */
  function Handle(first: int, w: Worker, ev: Event): (r: Worker)
    // messages are only ever appended
    ensures w.posted <= r.posted
    // anything but 'start' posts nothing and starts no search
    ensures ev.Receive? && ev.msg != StartRequest ==> r == w
    // 'start' posts the started line before anything its search reports
    ensures ev.Receive? && ev.msg == StartRequest ==>
              |r.posted| > |w.posted| && r.posted[|w.posted|] == LogMessage(StartedInWorker)
    // ... then runs the first `checkPrime` of a fresh search: a completing one posts its
    // completion line and task-finished, any other stays pending
    ensures ev.Receive? && ev.msg == StartRequest ==>
              var posted := w.posted + [LogMessage(StartedInWorker)];
              match CheckPrime(Begin(first, ev.startTime), ev.now)
              case Complete(t) => r == Worker(posted + Done(t.num), w.pending)
              case Continue(n) => r == Worker(posted, w.pending + [n])
    // a scheduled step posts nothing, or a completion line followed by task-finished
    ensures ev.Immediate? ==>
              r.posted == w.posted ||
              (|r.posted| == |w.posted| + 2 && r.posted[|w.posted|].LogMessage? &&
               r.posted[|w.posted|].line.PrimeCompleted? && r.posted[|w.posted| + 1] == TaskFinished)
    // ... namely the pending search's next `checkPrime`: it posts exactly when that call
    // completes, and otherwise the search advances in place
    ensures ev.Immediate? && ev.search < |w.pending| ==>
              var step := CheckPrime(w.pending[ev.search], ev.now);
              (r.posted == w.posted <==> step.Continue?) &&
              (step.Continue? ==> r.pending == w.pending[ev.search := step.next]) &&
              (step.Complete? ==> r.posted == w.posted + Done(w.pending[ev.search].num))
    // a step naming no pending search does nothing
    ensures ev.Immediate? && ev.search >= |w.pending| ==> r == w
  {
    match ev
    case Receive(msg, startTime, now) =>
      if msg != StartRequest then w
      else
        var posted := w.posted + [LogMessage(StartedInWorker)];
        (match CheckPrime(Begin(first, startTime), now)
         case Complete(t) => Worker(posted + Done(t.num), w.pending)
         case Continue(n) => Worker(posted, w.pending + [n]))
    case Immediate(k, now) =>
      if k >= |w.pending| then w
      else
        match CheckPrime(w.pending[k], now)
        case Complete(t) => Worker(w.posted + Done(t.num), w.pending[..k] + w.pending[k + 1..])
        case Continue(n) => Worker(w.posted, w.pending[k := n])
  }

  /** The worker after a series of events. */
  function RunWorker(first: int, w: Worker, evs: seq<Event>): Worker
    decreases |evs|
  {
    if |evs| == 0 then w else RunWorker(first, Handle(first, w, evs[0]), evs[1..])
  }

  /** Every task-finished is immediately preceded by the completion line. */
  predicate FinishFollowsCompletionLog(posted: seq<Posted>) {
    forall i :: 0 <= i < |posted| && posted[i] == TaskFinished ==>
      i >= 1 && posted[i - 1].LogMessage? && posted[i - 1].line.PrimeCompleted?
  }

  /** Each 'start' either still has its search pending or has posted exactly
      one task-finished: a search finishes at most once. */
  predicate FinishesMatchStarts(w: Worker) {
    Count(w.posted, TaskFinished) + |w.pending| == Count(w.posted, LogMessage(StartedInWorker))
  }

  predicate Valid(w: Worker) {
    FinishFollowsCompletionLog(w.posted) && FinishesMatchStarts(w)
  }

  /** Appending a completing search's posts keeps both invariants' shapes:
      the order of task-finished after its line, and one more finish. */
  lemma AppendDone(posted: seq<Posted>, n: int)
    requires FinishFollowsCompletionLog(posted)
    ensures FinishFollowsCompletionLog(posted + Done(n))
    ensures Count(posted + Done(n), TaskFinished) == Count(posted, TaskFinished) + 1
    ensures Count(posted + Done(n), LogMessage(StartedInWorker)) == Count(posted, LogMessage(StartedInWorker))
  {
    CountAppend(posted, Done(n), TaskFinished);
    CountAppend(posted, Done(n), LogMessage(StartedInWorker));
  }

  /** A 'start' message keeps the invariants. */
  lemma ReceiveKeepsValid(first: int, w: Worker, msg: Inbound, startTime: int, now: int)
    requires Valid(w)
    ensures Valid(Handle(first, w, Receive(msg, startTime, now)))
  {
    if msg == StartRequest {
      var posted := w.posted + [LogMessage(StartedInWorker)];
      CountAppend(w.posted, [LogMessage(StartedInWorker)], TaskFinished);
      CountAppend(w.posted, [LogMessage(StartedInWorker)], LogMessage(StartedInWorker));
      assert Count(posted, TaskFinished) == Count(w.posted, TaskFinished);
      assert Count(posted, LogMessage(StartedInWorker)) == Count(w.posted, LogMessage(StartedInWorker)) + 1;
      StartedKeepsOrder(w.posted);
      match CheckPrime(Begin(first, startTime), now)
      case Complete(t) => AppendDone(posted, t.num);
      case Continue(n) =>
    }
  }

  /** Posting the "started" line keeps every task-finished after its
      completion line. */
  lemma StartedKeepsOrder(posted: seq<Posted>)
    requires FinishFollowsCompletionLog(posted)
    ensures FinishFollowsCompletionLog(posted + [LogMessage(StartedInWorker)])
  {
    var p := posted + [LogMessage(StartedInWorker)];
    forall i | 0 <= i < |p| && p[i] == TaskFinished
      ensures i >= 1 && p[i - 1].LogMessage? && p[i - 1].line.PrimeCompleted?
    {
      assert i < |posted| && p[i] == posted[i] && p[i - 1] == posted[i - 1];
    }
  }

  /** A scheduled search step keeps the invariants. */
  lemma ImmediateKeepsValid(first: int, w: Worker, k: nat, now: int)
    requires Valid(w)
    ensures Valid(Handle(first, w, Immediate(k, now)))
  {
    if k < |w.pending| {
      match CheckPrime(w.pending[k], now)
      case Complete(t) => AppendDone(w.posted, t.num);
      case Continue(n) =>
    }
  }

  /** Every event keeps the ordering and counting invariants, whatever the
      first candidate and the clock. */
  lemma HandleKeepsValid(first: int, w: Worker, ev: Event)
    requires Valid(w)
    ensures Valid(Handle(first, w, ev))
  {
    match ev
    case Receive(msg, startTime, now) => ReceiveKeepsValid(first, w, msg, startTime, now);
    case Immediate(k, now) => ImmediateKeepsValid(first, w, k, now);
  }

  /** Over any series of events from a fresh worker: every task-finished is
      posted right after its completion line, and no search posts
      task-finished more than once (finishes never exceed starts). */
  lemma {:induction false} RunKeepsValid(first: int, w: Worker, evs: seq<Event>)
    requires Valid(w)
    ensures Valid(RunWorker(first, w, evs))
    ensures Count(RunWorker(first, w, evs).posted, TaskFinished)
            <= Count(RunWorker(first, w, evs).posted, LogMessage(StartedInWorker))
    decreases |evs|
  {
    if |evs| > 0 {
      HandleKeepsValid(first, w, evs[0]);
      RunKeepsValid(first, Handle(first, w, evs[0]), evs[1..]);
    }
  }

  /** The scheduled callbacks of pending search `k`, one per clock reading. */
  function StepsOf(k: nat, clock: seq<int>): (evs: seq<Event>)
    ensures |evs| == |clock|
    ensures forall i :: 0 <= i < |clock| ==> evs[i] == Immediate(k, clock[i])
  {
    if |clock| == 0 then [] else [Immediate(k, clock[0])] + StepsOf(k, clock[1..])
  }

  /** A worker with no pending search ignores every scheduled step. */
  lemma {:induction false} IdleIgnoresSteps(first: int, w: Worker, clock: seq<int>)
    requires w.pending == []
    ensures RunWorker(first, w, StepsOf(0, clock)) == w
    decreases |clock|
  {
    if |clock| > 0 {
      assert StepsOf(0, clock)[1..] == StepsOf(0, clock[1..]);
      IdleIgnoresSteps(first, w, clock[1..]);
    }
  }

  /** With one search pending, its scheduled callbacks run that search: the
      worker posts what `RunSearch` reports over the same clock readings. */
  lemma {:induction false} StepsRunSearch(first: int, w: Worker, clock: seq<int>)
    requires |w.pending| == 1
    ensures var run := RunSearch(w.pending[0], clock);
            RunWorker(first, w, StepsOf(0, clock)).posted
            == w.posted + (if run.finished then Done(run.last.num) else [])
    decreases |clock|
  {
    if |clock| > 0 {
      var evs := StepsOf(0, clock);
      assert evs[1..] == StepsOf(0, clock[1..]);
      var w1 := Handle(first, w, evs[0]);
      match CheckPrime(w.pending[0], clock[0])
      case Complete(t) =>
        assert w1.pending == [];
        IdleIgnoresSteps(first, w1, clock[1..]);
      case Continue(n) =>
        assert w1 == Worker(w.posted, [n]);
        StepsRunSearch(first, w1, clock[1..]);
    }
  }

  /** A 'start' followed by the scheduled callbacks of its search posts the
      "started" line, then what `RunSearch` reports over the same readings:
      the first reading is that of the `checkPrime` run inside the handler. */
  lemma StartThenStepsRunSearch(first: int, startTime: int, clock: seq<int>)
    requires |clock| >= 1
    ensures var run := RunSearch(Begin(first, startTime), clock);
            RunWorker(first, Fresh, [Receive(StartRequest, startTime, clock[0])] + StepsOf(0, clock[1..])).posted
            == [LogMessage(StartedInWorker)] + (if run.finished then Done(run.last.num) else [])
  {
    var evs := [Receive(StartRequest, startTime, clock[0])] + StepsOf(0, clock[1..]);
    assert evs[1..] == StepsOf(0, clock[1..]);
    var w1 := Handle(first, Fresh, evs[0]);
    match CheckPrime(Begin(first, startTime), clock[0])
    case Complete(t) =>
      IdleIgnoresSteps(first, w1, clock[1..]);
    case Continue(n) =>
      StepsRunSearch(first, w1, clock[1..]);
  }

  /** With the odd start the worker does finish: for any prime p above the
      start, a 'start' whose search runs up to p before the target duration
      and once more after it posts the "started" line, the completion line
      (naming p + 2) and task-finished. */
  lemma IntendedWorkerFinishes(startTime: int, p: int, clock: seq<int>)
    requires p >= IntendedFirstCandidate && IsPrime(p)
    requires |clock| == (p - IntendedFirstCandidate) / 2 + 2
    requires forall i :: 0 <= i < |clock| - 1 ==> clock[i] - startTime < TargetDurationMs
    requires clock[|clock| - 1] - startTime >= TargetDurationMs
    ensures RunWorker(IntendedFirstCandidate, Fresh,
                      [Receive(StartRequest, startTime, clock[0])] + StepsOf(0, clock[1..])).posted
            == [LogMessage(StartedInWorker), LogMessage(PrimeCompleted(p + 2)), TaskFinished]
  {
    IntendedSearchFindsPrime(startTime, p, clock);
    StartThenStepsRunSearch(IntendedFirstCandidate, startTime, clock);
  }

  /** Every pending search is barren and nothing has finished. */
  predicate Silent(w: Worker) {
    TaskFinished !in w.posted && forall i :: 0 <= i < |w.pending| ==> Barren(w.pending[i])
  }

  lemma HandleKeepsSilent(w: Worker, ev: Event)
    requires Silent(w)
    ensures Silent(Handle(SourceFirstCandidate, w, ev))
  {
  }

  /** As written (first candidate 1000000000) the worker never posts
      task-finished, whatever messages arrive and however the clock runs. */
  lemma {:induction false} SourceWorkerNeverFinishes(w: Worker, evs: seq<Event>)
    requires Silent(w)
    ensures TaskFinished !in RunWorker(SourceFirstCandidate, w, evs).posted
    decreases |evs|
  {
    if |evs| > 0 {
      HandleKeepsSilent(w, evs[0]);
      SourceWorkerNeverFinishes(Handle(SourceFirstCandidate, w, evs[0]), evs[1..]);
    }
  }

  /** Two 'start' messages begin two independent searches: nothing guards
      against a second start. */
  lemma SecondStartRunsSecondSearch(t1: int, n1: int, t2: int, n2: int)
    ensures var w := RunWorker(SourceFirstCandidate, Fresh,
                               [Receive(StartRequest, t1, n1), Receive(StartRequest, t2, n2)]);
            |w.pending| == 2 && w.posted == [LogMessage(StartedInWorker), LogMessage(StartedInWorker)]
  {
    EvenIsNotPrime(SourceFirstCandidate);
    var evs := [Receive(StartRequest, t1, n1), Receive(StartRequest, t2, n2)];
    var w1 := Handle(SourceFirstCandidate, Fresh, evs[0]);
    var w2 := Handle(SourceFirstCandidate, w1, evs[1]);
    assert evs[1..][1..] == [];
    assert RunWorker(SourceFirstCandidate, w1, evs[1..]) == RunWorker(SourceFirstCandidate, w2, []);
  }
}
